=== FILE: README.md ===
# Leader-tracking router of the Raft client proxy, in Dafny

The proxy stands in front of a Raft cluster. It forwards each write
command to the node it believes is the leader. A node that is not the
leader answers with the id of the node it believes leads, and the proxy
moves its single, process-wide leader guess there and tries again. This
project models that guess and its redirect logic in two variants:

- the `NewEntry` handler of `proxy/server.go` retries until a node
  commits or the shared deadline fires (module `Proxy`, properties in
  `ProxyProperties`);
- the older `/push` handler of `main.go` follows at most one redirect
  (module `PushHandler`).

Module `Cluster` holds the shared vocabulary. It defines the outcome of
one remote call (`Ok(success, leader) | DeadlineExceeded | OtherErr`),
the writes a handler makes to its HTTP caller, Go's `int32` conversion,
`%t` formatting, and `randRange`.

The remote call is an oracle. Every loop iteration consumes one
`Attempt(draw, outcome)`. `outcome` is what the node returns. `draw` is
the value the random source would give `rand.Intn`; it is used only
when the guess is unknown (-1). The loop is then a deterministic
transition system: `Step` maps a guess and an attempt to the next
guess, and `Loop` is a recursive driver over a finite script of attempts.

Go runtime panics are made explicit as the exit `Panicked`. They come
from indexing the client list with an out-of-range guess, or from
`rand.Intn` with a non-positive bound. When the script runs out before
the loop stops, the exit is `Pending`. The real loop would keep going
until the two-second context deadline, which appears here only as a
`DeadlineExceeded` outcome.

Verify with `dafny verify *.dfy`; the modules import each other directly.

## Model

| member | source | states |
|---|---|---|
| Cluster.RandRange | proxy/server.go:19-21 | `randRange(min, max)` is in `[min, max)`; it requires `min < max` because `rand.Intn` panics on a non-positive bound |
| Cluster.RandRangeCovers | main.go:21-23 | every value of `[min, max)` is the pick for some draw, so the bound is the only constraint on the choice |
| Cluster.WrapInt32 | main.go:59 | `int32(leader)` keeps the low 32 bits; it is the identity on values that fit in 32 bits |
| Cluster.FormatBool | main.go:72 | `%t` formatting yields exactly "true" or "false", and "true" exactly for `true` |
| Proxy.NewServer | proxy/server.go:152-163 | a new server has one client per cluster node, in node order, and leader guess -1 |
| Proxy.Adopt | proxy/server.go:121-123 | assigning the reported leader only when it differs always leaves the guess equal to the reported leader, so the same id again is a no-op |
| Proxy.Pick | proxy/server.go:105-107 | a known guess is kept; an unknown guess becomes a pick in `[0, len(env.Cluster))`, or panics when the cluster is empty |
| Proxy.Step | proxy/server.go:104-133 | one iteration calls the current guess (or a fresh pick) and panics if that is not a client index; a fresh pick is stored as the guess even when it panics. After `Ok` the guess is the reported leader. An error leaves it unchanged. It commits, writing only "true", exactly on `Ok` with success; it stops silently on `DeadlineExceeded`; on another error it writes a 500 and continues |
| Proxy.Loop | proxy/server.go:100-133 | the loop only calls valid client indices and calls once per attempt until a panic. Every attempt before the last one consumed went round again (a refusal or an ordinary error). A commit ends on a successful `Ok`, a timeout on `DeadlineExceeded`, and a waiting loop has gone round on every attempt. The only body it writes is "true", as the last write of a commit; every other write is an error reply |
| Proxy.NewEntry | proxy/server.go:90-134 | a malformed body gets 400, leaves the server unchanged and calls no node. Otherwise the request is exactly `Loop` run against the stored guess: its exit, calls and writes are the reply, and the guess it leaves is stored for the next request. Address and clients never change, and "false" is never written |
| Proxy.SafeLoop | proxy/server.go:105-122 | with equal cluster and client list lengths, a valid starting guess and every reported leader in `[-1, n)`, the loop never panics, keeps the guess in `[-1, n)` and calls a node on every attempt |
| Proxy.CheckLeader | proxy/server.go:121-122 | the corrected guess update: a reported leader outside `[-1, n)` is read as unknown, while in-range reports and errors pass through unchanged |
| Proxy.Sanitize | proxy/server.go:121-122 | range-checks every response of a script; afterwards every reported leader is in `[-1, n)` |
| Proxy.NewEntryChecked | proxy/server.go:109-122 | the corrected handler never panics and keeps the guess unknown or a valid index, whatever the nodes report |
| Proxy.ServeHTTP | proxy/server.go:136-150 | a method other than GET or POST gets 405 "not allowed"; GET is the log read and leaves the server unchanged; POST is exactly `NewEntry` |
| ProxyProperties.FirstStop | proxy/server.go:104-117 | the index of the first attempt that is neither a refusal nor an ordinary error (all earlier ones are), or the script length |
| ProxyProperties.ExitReason | proxy/server.go:104-127 | for any cluster and any reports, unless the loop panics, it consumes attempts exactly up to the first terminal one. It commits exactly when that attempt is a successful `Ok` and times out exactly when it is `DeadlineExceeded`. Without one it is still waiting |
| ProxyProperties.ExitReasonSafe | proxy/server.go:104-127 | with in-range reports the loop never panics, so it always stops at the first terminal attempt, committing exactly when that attempt is an `Ok` |
| ProxyProperties.CommitOnBadReport | proxy/server.go:121-127 | three nodes, guess 0, a commit naming node 7: the loop commits, writes "true" and leaves 7 as the guess |
| ProxyProperties.DispatchFollowsGuess | proxy/server.go:105-123 | for any reports, even in a run that ends in a panic, the first call goes to the starting guess. Each later call goes to the guess the previous attempt left: the reported leader after a response, the same node after an error. The final guess is the one the last attempt left, so errors never move it |
| ProxyProperties.StaysOnLeader | proxy/server.go:121-123 | once the guess is the leader every response names, every call goes to it and the guess stays there |
| ProxyProperties.ConvergesAfterFirstResponse | proxy/server.go:104-133 | when every response names leader `l`, every call after the first response goes to `l` (at most one redirect), and the guess ends at `l` |
| ProxyProperties.NextRequestGoesToLeader | proxy/server.go:105-123 | after a request that heard leader `l`, the guess is `l` and the next request sends every call straight to `l` |
| ProxyProperties.SingleNodeNeverRedirects | proxy/server.go:105-109 | in a one-node cluster every call goes to node 0 |
| ProxyProperties.BadLeaderPanics | proxy/server.go:109-122 | a refusal naming a leader outside `[-1, n)` makes the next iteration panic on the client index |
| ProxyProperties.PoisonedGuessPanicsNextRequest | proxy/server.go:121-127 | a commit naming an out-of-range leader leaves a guess that makes the next request panic |
| ProxyProperties.BadLeaderExample | proxy/server.go:109-122 | three nodes, guess 0, a refusal naming node 5: the loop panics |
| ProxyProperties.CheckedRequestsNeverPanic | proxy/server.go:152-158 | from a new server, two requests in a row through the range-checked handler never panic and leave a valid guess, whatever the nodes report |
| ProxyProperties.CheckedAgrees | proxy/server.go:90-134 | when every report is in range, the range-checked handler behaves exactly like the source's handler |
| ProxyProperties.GuessInvariant | proxy/server.go:136-150 | when every reported leader is in range, any request keeps the guess unknown or a valid index, keeps the client list, and does not panic |
| ProxyProperties.RedirectScenario | proxy/server.go:100-133 | three nodes, node 1 leads, the pick lands on node 0. The loop calls 0 then 1, writes "true", and leaves the guess at 1 |
| PushHandler.PushWith | main.go:36-57 | a malformed body gets 400 with the guess untouched. The first call goes to the guess, or to a fresh pick when it is unknown. A non-positive pick bound panics. A known guess outside the client list panics on the slice index before any call, with nothing written and the guess left as it was. Everything after the first node is chosen is `Dispatch` |
| PushHandler.Dispatch | main.go:52-72 | there are at most two calls; the second happens exactly when the first response names another leader (compared as `int32`), and it goes to that leader. When the request completes, the guess is the last response's leader and the body is its `%t` success. A failed call gets 500 and leaves the guess at the node just called: unchanged after the first call, already redirected after the second. As written, only a redirect to an id outside the client list panics |
| PushHandler.Push | main.go:48-50 | as written, the first pick for an unknown guess is never the last node, and a one-node cluster panics |
| PushHandler.PushFixed | main.go:48-62 | corrected: with the pick bound equal to the cluster size and reported ids range-checked, an unknown guess always becomes a valid first call, and a non-empty cluster with a valid guess never panics and keeps the guess valid |
| PushHandler.Kept | main.go:60-71 | the corrected guess update keeps a reported id in `[-1, n)` and reads any other id as unknown; as written, it keeps the id unchanged |
| PushHandler.SingleNodePushPanics | main.go:48-50 | one node, unknown guess: the handler as written panics; the corrected one calls node 0 |
| PushHandler.PushNeverPicksLast | main.go:49 | as written, no draw makes node `n-1` the first pick |
| PushHandler.PushFixedReachesEveryNode | main.go:49 | corrected, every node including the last is the first pick for some draw |
| PushHandler.PushStaysOnLeader | main.go:52-71 | when the guess is the leader the first response names, the request makes one call and leaves the guess there |
| PushHandler.PushRedirectOnce | main.go:59-72 | a first response naming another node `l`, then an answer from `l`, gives exactly the calls `[guess, l]`, a guess of `l`, and the second response's flag as the body |
| PushHandler.PushBadRedirectPanics | main.go:59-61 | as written, a first response naming any id outside the client list, -1 included, is followed and panics on the slice index, leaving that id as the guess |
| PushHandler.PushPoisonedGuessPanicsNextRequest | main.go:48-52 | as written, after such a redirect to an id other than -1, the next request panics on `GetClients()[leader]` before calling any node, whatever it carries |
| PushHandler.PushUnknownReportPanics | main.go:59-61 | three nodes, guess 0, node 0 answers `Ok(false, -1)`: as written the handler panics; corrected, it answers "false" and leaves the guess unknown |

## Behaviour worth knowing

- After a call fails with an error other than a deadline, `NewEntry`
  writes a 500 and goes round again (proxy/server.go:114-116). A later
  commit then appends "true" to the same response. So one caller can
  receive several error replies followed by "true". `Loop` keeps every
  write in order.
- On `DeadlineExceeded`, `NewEntry` returns without writing anything
  (proxy/server.go:112-113).
- The `/push` handler calls its nodes with `context.Background()`, so it
  has no deadline. Every call error is answered with 500.

## Left out

- The `GetLog` fan-out read (proxy/server.go:59-88): its substance is goroutines, a `WaitGroup` and mutex-guarded concurrent writes. `ServeHTTP` routes GET to an abstract `ReadLog` result that leaves the guess unchanged.
- `Start`, `Stop`, `Deal`, `Close`, `ListenAndServe`, `Shutdown` and mux registration (proxy/server.go:36-57, 160-161), and signal handling and server launch in `main` (main.go:25-33, 78-94): process lifecycle and I/O.
- JSON decoding of the body: the handlers receive the decode result (`Decoded` or `Malformed`).
- `fmt.Printf` logging: it has no effect on the router's state.
- A failing `w.Write` of the success body (proxy/server.go:128-131, main.go:73-76): I/O. The model assumes the write succeeds. Either way the source stops after it.
- Time: `context.WithTimeout` is only the `DeadlineExceeded` outcome in the script. A script that runs out ends in `Pending`.
- Concurrent requests sharing the unsynchronised guess: the model serves one request at a time. The guess is threaded from one request to the next.
- The random source: `rand.Intn(n)` is `draw % n` for an arbitrary `draw`. Uniformity is not modelled, only that every value of the range can be chosen.
- The `rpc.Client` calls: they are replaced by the scripted outcome.
- HTTP status resolution when `http.Error` is called more than once: writes are recorded in order, and the status the caller finally sees is not modelled.
- main.go calls `RegisterHandleFunc`, `GetClients` and `Push`, which the `Server` interface shown does not declare. The handler is modelled against a client list of `n` clients, one per node of `env.Cluster`.
- Go's 64-bit `int` is modelled as unbounded: every guess is -1, a pick below the cluster size, or an `int32` leader id, so 64-bit overflow cannot occur.
- The `rpc` and `env` packages, including `rpc.NewClients` and `env.Cluster`, are not part of this model. `NewServer` assumes one client per node, and `env.Cluster` is an input.

## Findings

| source | as written | input that shows it | evidently intended | confidence | as-written member | corrected member |
|---|---|---|---|---|---|---|
| main.go:49 | an unknown guess becomes `randRange(0, len(env.Cluster)-1)` | a one-node cluster with guess -1: `rand.Intn(0)` panics. With three nodes, node 2 is never the first pick | `randRange(0, len(env.Cluster))`, as proxy/server.go:106 does | high; not executed | PushHandler.SingleNodePushPanics | PushHandler.PushFixed |
| main.go:59-61 | the first response's `Leader` is redirected to without a range check | three nodes, guess 0, node 0 answers `Ok(false, -1)` ("leader unknown"): the handler indexes `clients[-1]` and panics | redirect only to a valid node; otherwise answer the first response and keep the guess unknown | medium; not executed | PushHandler.PushUnknownReportPanics | PushHandler.PushFixed |
| proxy/server.go:121-122 | the reported `resp.Leader` becomes the guess without a range check, and the next iteration indexes `s.clients` with it (line 109) | three nodes, guess 0, a node answers `Ok(false, 5)`: the next iteration indexes `clients[5]` and panics | an out-of-range leader id is treated as unknown, so the guess stays -1 or a valid index | medium (depends on what nodes report); not executed | ProxyProperties.BadLeaderExample | Proxy.NewEntryChecked |

`PushHandler.PushNeverPicksLast` shows the second half of the first
finding for every cluster size. `PushHandler.PushFixedReachesEveryNode`
proves the intended property of the correction.
`PushHandler.PushBadRedirectPanics` generalises the second finding's
counterexample, and `PushHandler.PushPoisonedGuessPanicsNextRequest`
shows that the bad guess then breaks the next request too.
`PushHandler.PushFixed` carries both corrections, and its contract states
that it never panics. Through `PushHandler.Kept`, an out-of-range id
becomes -1. For the third finding,
`ProxyProperties.BadLeaderPanics` and
`ProxyProperties.PoisonedGuessPanicsNextRequest` generalise the
counterexample. `ProxyProperties.CheckedRequestsNeverPanic` and
`ProxyProperties.CheckedAgrees` prove the correction safe, and show it
agrees with the source whenever nodes report in-range ids.

=== FILE: cluster.dfy ===
/**
  Shared vocabulary of the proxy: cluster nodes and their clients, the
  outcome of one remote call as the router observes it, what a handler
  writes back to its HTTP caller, and the bounded random pick used to
  bootstrap an unknown leader guess.

  The remote call itself (the consensus node behind each client) is not
  modelled: every call is replaced by an `Outcome` supplied by the caller
  of the model, so the router becomes a deterministic transition system
  driven by a scripted sequence of outcomes.
 */
module Cluster {

  /** Go's `int32`, the width of the `Leader` field carried by a response. */
  type Int32 = x: int | -0x8000_0000 <= x < 0x8000_0000

  /** Go's conversion `int32(x)`: keeps the low 32 bits in two's complement. */
  function WrapInt32(x: int): (r: Int32)
    ensures -0x8000_0000 <= x < 0x8000_0000 ==> r == x
    ensures (x - r) % 0x1_0000_0000 == 0
  {
    var m := x % 0x1_0000_0000;
    if m < 0x8000_0000 then m else m - 0x1_0000_0000
  }

  datatype Option<T> = None | Some(value: T)

  /** The leader guess that names no node. */
  const Unknown: int := -1

  /** A guess that is unknown or names one of `n` clients. */
  predicate ValidGuess(g: int, n: nat) {
    -1 <= g < n
  }

  /** A cluster member; its position in the cluster list is its leader id. */
  datatype Node = Node(addr: string)

  /** The remote handle the router keeps for one node. */
  datatype Client = Client(node: Node)

  /** The replicated command; the router only forwards it. */
  datatype Command = Command(payload: string)

  /** Result of decoding the inbound JSON body. */
  datatype Decoded = Decoded(cmd: Command) | Malformed(msg: string)

  /** What one `NewEntry`/`Push` remote call returns. */
  datatype Outcome =
    | Ok(success: bool, leader: Int32)
    | DeadlineExceeded
    | OtherErr(msg: string)

  /** Go's `context.DeadlineExceeded.Error()`. */
  const DeadlineText: string := "context deadline exceeded"

  /** The text `err.Error()` of a failed call. */
  function ErrorText(o: Outcome): string
    requires !o.Ok?
  {
    match o
    case DeadlineExceeded => DeadlineText
    case OtherErr(msg) => msg
  }

  /**
    The nondeterminism one router iteration consumes: `draw` is the raw
    value the random source would hand to `rand.Intn` (used only when the
    guess is unknown), `outcome` is what the remote call returns.
   */
  datatype Attempt = Attempt(draw: nat, outcome: Outcome)

  /** One write to the HTTP response: `http.Error(w, text, status)` or a plain body write. */
  datatype Write = Failure(status: int, text: string) | Body(text: string)

  const StatusBadRequest: int := 400
  const StatusMethodNotAllowed: int := 405
  const StatusInternalServerError: int := 500

  /** Go's `fmt.Sprintf("%t", b)`. */
  function FormatBool(b: bool): (s: string)
    ensures s == "true" || s == "false"
    ensures b <==> s == "true"
  {
    if b then "true" else "false"
  }

  /**
    `randRange(min, max)` = `rand.Intn(max - min) + min`, with the random
    source's value supplied as `draw`. `rand.Intn` panics unless its
    argument is positive, hence the precondition.
   */
  function RandRange(min: int, max: int, draw: nat): (r: int)
    requires min < max
    ensures min <= r < max
  {
    draw % (max - min) + min
  }

  /** Every value of the range is some draw's pick: the choice is unconstrained within its bound. */
  lemma RandRangeCovers(min: int, max: int, v: int)
    requires min <= v < max
    ensures RandRange(min, max, v - min) == v
  {
  }
}

=== FILE: proxy_properties.dfy ===
/**
  Properties of the `NewEntry` retry loop of proxy/server.go, stated over
  the model in module `Proxy`: when the loop stops and why, where each
  attempt is sent, what the guess is afterwards, convergence on a stable
  leader, and what goes wrong when a node reports a leader id outside the
  client list.

  Most lemmas assume `Safe`: the cluster is non-empty, the global cluster
  list and the client list have the same length, the starting guess is
  unknown or valid, and every reported leader id is unknown or valid. The
  source checks none of these; `BadLeaderPanics` shows what happens
  without the last one.
 */
module ProxyProperties {
  import opened Cluster
  import opened Proxy

  predicate Safe(n: nat, guess: int, script: seq<Attempt>) {
    n > 0 && ValidGuess(guess, n) && ReportsInRange(script, n)
  }

  /** Every response in the script names the same leader `l`. */
  predicate AllReport(script: seq<Attempt>, l: int) {
    forall k :: 0 <= k < |script| && script[k].outcome.Ok? ==> script[k].outcome.leader == l
  }

  /** Index of the first attempt after which the loop cannot go round again (`|script|` if none). */
  function FirstStop(script: seq<Attempt>): (k: nat)
    ensures k <= |script|
    ensures forall j :: 0 <= j < k ==> Continues(script[j].outcome)
    ensures k < |script| ==> !Continues(script[k].outcome)
    decreases |script|
  {
    if |script| == 0 || !Continues(script[0].outcome) then 0
    else 1 + FirstStop(script[1..])
  }

  lemma AllReportTail(script: seq<Attempt>, l: int)
    requires |script| > 0 && AllReport(script, l)
    ensures AllReport(script[1..], l)
  {
  }

  /**
    Exit conditions, for any cluster and any reports: unless it panics, the
    loop consumes attempts up to and including the first one that is
    neither a refusal (`Ok` with `success == false`) nor an ordinary error;
    it commits exactly when that attempt is an `Ok` (hence
    `success == true`), and times out exactly when it is
    `DeadlineExceeded`. Without such an attempt the loop is still waiting.
   */
  lemma ExitReason(envLen: nat, nClients: nat, guess: int, script: seq<Attempt>)
    ensures var r := Loop(envLen, nClients, guess, script);
            var k := FirstStop(script);
            r.exit != Panicked ==>
              && (k == |script| ==> r.exit == Pending && r.used == |script|)
              && (k < |script| ==>
                    && r.used == k + 1
                    && (r.exit == Committed <==> script[k].outcome.Ok?)
                    && (r.exit == Committed ==> script[k].outcome.success)
                    && (r.exit == TimedOut <==> script[k].outcome.DeadlineExceeded?))
  {
    // the exit ensures of `Loop` name the deciding attempt; `FirstStop` is the first attempt that does not continue
  }

  /** Under in-range reports the exit conditions hold outright: such a loop never panics. */
  lemma ExitReasonSafe(n: nat, guess: int, script: seq<Attempt>)
    requires Safe(n, guess, script)
    ensures var r := Loop(n, n, guess, script);
            var k := FirstStop(script);
            && r.exit != Panicked
            && (k == |script| ==> r.exit == Pending)
            && (k < |script| ==> r.used == k + 1 && (r.exit == Committed <==> script[k].outcome.Ok?))
  {
    SafeLoop(n, guess, script);
    ExitReason(n, n, guess, script);
  }

  /** The input that needs no index-safety premise: a commit naming an unknown node 7 in a three-node cluster. */
  lemma CommitOnBadReport()
    ensures var r := Loop(3, 3, 0, [Attempt(0, Ok(true, 7))]);
            r.exit == Committed && r.writes == [Body("true")] && r.guess == 7
  {
  }

  /**
    Each attempt is sent to the current guess: the first to the starting
    guess (or a pick in `[0, n)` when it is unknown), every later one to the
    guess left by the previous attempt, which is the reported leader after a
    response and the same node after an error. The final guess is the one
    left by the last attempt, so errors (including `DeadlineExceeded`) never
    move it. None of this needs the reports to be in range: a panic only
    cuts the run short.
   */
  lemma {:induction false} DispatchFollowsGuess(n: nat, guess: int, script: seq<Attempt>)
    ensures var r := Loop(n, n, guess, script);
            && (|r.targets| > 0 && guess != Unknown ==> r.targets[0] == guess)
            && (forall k :: 0 <= k < |r.targets| - 1 && GuessAfter(r.targets[k], script[k].outcome) != Unknown ==>
                  r.targets[k + 1] == GuessAfter(r.targets[k], script[k].outcome))
            && (|r.targets| == 0 ==> r.guess == guess)
            && (|r.targets| > 0 ==> r.guess == GuessAfter(r.targets[|r.targets| - 1], script[|r.targets| - 1].outcome))
    decreases |script|
  {
    if |script| > 0 {
      var t := Step(n, n, guess, script[0]);
      if t.phase == Looping {
        var r := Loop(n, n, guess, script);
        var rest := Loop(n, n, t.guess, script[1..]);
        DispatchFollowsGuess(n, t.guess, script[1..]);
        assert r.targets == [t.target.value] + rest.targets;
        forall k | 0 <= k < |r.targets| - 1 && GuessAfter(r.targets[k], script[k].outcome) != Unknown
          ensures r.targets[k + 1] == GuessAfter(r.targets[k], script[k].outcome)
        {
          if k > 0 {
            assert script[k] == script[1..][k - 1];
          }
        }
        if |rest.targets| > 0 {
          assert script[|r.targets| - 1] == script[1..][|rest.targets| - 1];
        }
      }
    }
  }

  /**
    Once the guess is the leader every response names, every attempt goes
    straight to it and the guess stays put: hearing the same leader id
    again changes nothing.
   */
  lemma {:induction false} StaysOnLeader(n: nat, l: int, script: seq<Attempt>)
    requires 0 <= l < n && AllReport(script, l)
    ensures var r := Loop(n, n, l, script);
            r.exit != Panicked && r.guess == l && forall i :: 0 <= i < |r.targets| ==> r.targets[i] == l
    decreases |script|
  {
    if |script| > 0 {
      var t := Step(n, n, l, script[0]);
      if t.phase == Looping {
        AllReportTail(script, l);
        StaysOnLeader(n, l, script[1..]);
      }
    }
  }

  /**
    Convergence: when every response names leader `l`, every attempt after
    the first response is sent to `l` (so at most one redirect happens), and
    once a response has arrived the guess left behind is `l`.
   */
  lemma {:induction false} ConvergesAfterFirstResponse(n: nat, guess: int, l: int, script: seq<Attempt>)
    requires n > 0 && ValidGuess(guess, n) && 0 <= l < n && AllReport(script, l)
    ensures var r := Loop(n, n, guess, script);
            && r.exit != Panicked
            && (forall k, j :: 0 <= k < j < |r.targets| && script[k].outcome.Ok? ==> r.targets[j] == l)
            && ((exists k :: 0 <= k < |r.targets| && script[k].outcome.Ok?) ==> r.guess == l)
    decreases |script|
  {
    if |script| > 0 {
      var r := Loop(n, n, guess, script);
      var t := Step(n, n, guess, script[0]);
      if t.phase == Looping {
        AllReportTail(script, l);
        var rest := Loop(n, n, t.guess, script[1..]);
        assert r.targets == [t.target.value] + rest.targets;
        if script[0].outcome.Ok? {
          StaysOnLeader(n, l, script[1..]);
        } else {
          ConvergesAfterFirstResponse(n, t.guess, l, script[1..]);
          forall k, j | 0 <= k < j < |r.targets| && script[k].outcome.Ok?
            ensures r.targets[j] == l
          {
            assert script[k] == script[1..][k - 1];
          }
          if exists k :: 0 <= k < |r.targets| && script[k].outcome.Ok? {
            var k :| 0 <= k < |r.targets| && script[k].outcome.Ok?;
            assert script[1..][k - 1] == script[k];
          }
        }
      }
    }
  }

  /** A one-node cluster never redirects: every attempt goes to node 0. */
  lemma SingleNodeNeverRedirects(guess: int, script: seq<Attempt>)
    requires Safe(1, guess, script)
    ensures var r := Loop(1, 1, guess, script);
            r.exit != Panicked && forall i :: 0 <= i < |r.targets| ==> r.targets[i] == 0
  {
    SafeLoop(1, guess, script);
  }

  /**
    Index safety needs the precondition on responses: a refusal that names
    a leader outside `[-1, n)` makes the next iteration index the client
    list out of range.
   */
  lemma BadLeaderPanics(n: nat, guess: int, script: seq<Attempt>)
    requires n > 0 && ValidGuess(guess, n) && |script| >= 2
    requires script[0].outcome.Ok? && !script[0].outcome.success
    requires !ValidGuess(script[0].outcome.leader, n)
    ensures var r := Loop(n, n, guess, script);
            r.exit == Panicked && r.used == 2 && |r.targets| == 1
            && r.guess == script[0].outcome.leader
  {
  }

  /** The same defect across requests: a commit that reports a bad leader poisons the guess for the next request. */
  lemma PoisonedGuessPanicsNextRequest(s: Server, env: seq<Node>, cmd: Command, a: Attempt, script: seq<Attempt>)
    requires |env| == |s.clients| > 0 && ValidGuess(s.leader, |s.clients|)
    requires a.outcome.Ok? && a.outcome.success && !ValidGuess(a.outcome.leader, |s.clients|)
    requires |script| > 0
    ensures var rep := NewEntry(s, env, Decoded(cmd), [a]);
            rep.exit == Committed && NewEntry(rep.server, env, Decoded(cmd), script).exit == Panicked
  {
  }

  /** The counterexample: three nodes, a node answers "not me, node 5". */
  lemma BadLeaderExample()
    ensures Loop(3, 3, 0, [Attempt(0, Ok(false, 5)), Attempt(0, Ok(true, 5))]).exit == Panicked
  {
    BadLeaderPanics(3, 0, [Attempt(0, Ok(false, 5)), Attempt(0, Ok(true, 5))]);
  }

  /**
    The range check removes the poisoned guess: starting from a new
    server, two requests in a row through the range-checked handler never
    panic, whatever the nodes report in either.
   */
  lemma CheckedRequestsNeverPanic(addr: string, cluster: seq<Node>, b1: Decoded, s1: seq<Attempt>, b2: Decoded, s2: seq<Attempt>)
    requires |cluster| > 0
    ensures var rep1 := NewEntryChecked(NewServer(addr, cluster), cluster, b1, s1);
            var rep2 := NewEntryChecked(rep1.server, cluster, b2, s2);
            && rep1.exit != Panicked && rep2.exit != Panicked
            && ValidGuess(rep2.server.leader, |cluster|)
  {
  }

  /** With well-formed reports the range check changes nothing: it agrees with the source's handler. */
  lemma CheckedAgrees(s: Server, env: seq<Node>, body: Decoded, script: seq<Attempt>)
    requires ReportsInRange(script, |s.clients|)
    ensures NewEntryChecked(s, env, body, script) == NewEntry(s, env, body, script)
  {
    assert Sanitize(|s.clients|, script) == script;
  }

  /**
    The router invariant "the guess is unknown or a valid index" holds of
    a new server and is kept by every request, provided the nodes report
    leader ids in range; such requests never panic.
   */
  lemma GuessInvariant(s: Server, env: seq<Node>, verb: string, body: Decoded, script: seq<Attempt>)
    requires |env| == |s.clients| > 0 && ValidGuess(s.leader, |s.clients|)
    requires ReportsInRange(script, |s.clients|)
    ensures var h := ServeHTTP(s, env, verb, body, script);
            && h.server.clients == s.clients
            && ValidGuess(h.server.leader, |s.clients|)
            && (h.route.Append? ==> h.route.exit != Panicked)
  {
    SafeLoop(|s.clients|, s.leader, script);
  }

  /**
    All subsequent requests in the same process go straight to the leader:
    after a request that received a response naming `l`, a following
    request whose responses also name `l` sends every attempt to `l`.
   */
  lemma NextRequestGoesToLeader(s: Server, env: seq<Node>, cmd: Command, first: seq<Attempt>, second: seq<Attempt>, l: int)
    requires |env| == |s.clients| > 0 && ValidGuess(s.leader, |s.clients|) && 0 <= l < |s.clients|
    requires AllReport(first, l) && AllReport(second, l)
    requires exists k :: 0 <= k < |NewEntry(s, env, Decoded(cmd), first).targets| && first[k].outcome.Ok?
    ensures var rep := NewEntry(s, env, Decoded(cmd), first);
            var next := NewEntry(rep.server, env, Decoded(cmd), second);
            && rep.server.leader == l
            && next.exit != Panicked
            && forall i :: 0 <= i < |next.targets| ==> next.targets[i] == l
  {
    ConvergesAfterFirstResponse(|s.clients|, s.leader, l, first);
    StaysOnLeader(|s.clients|, l, second);
  }

  /**
    The three-node scenario: node 1 leads, the guess is unknown, the random
    pick lands on node 0, which redirects to node 1; node 1 commits, the
    caller reads "true" and the guess is left at 1.
   */
  lemma RedirectScenario()
    ensures var r := Loop(3, 3, Unknown, [Attempt(0, Ok(false, 1)), Attempt(7, Ok(true, 1))]);
            r.exit == Committed && r.targets == [0, 1] && r.guess == 1 && r.writes == [Body("true")]
  {
  }
}

=== FILE: proxy_server.dfy ===
/**
  The leader-tracking router of proxy/server.go: the server record with its
  single leader guess, the construction that starts the guess as unknown,
  one iteration of the `NewEntry` retry loop as a pure transition, the loop
  itself as a recursive driver over a scripted sequence of attempts, the
  `NewEntry` handler around it, and the method dispatch of `ServeHTTP`.

  A guess of -1 means "unknown". Go panics (an index outside the client
  list, `rand.Intn` of a non-positive bound) are the explicit exit
  `Panicked`; a script that runs out before the loop stops ends in
  `Pending` (the real loop would keep waiting for its deadline).
 */
module Proxy {
  import opened Cluster

  datatype Server = Server(addr: string, clients: seq<Client>, leader: int)

  /** How a request on the write path ended. */
  datatype Exit = BadRequest | Committed | TimedOut | Panicked | Pending

  datatype Phase = Looping | Done(exit: Exit)

  /** Effect of one loop iteration: next phase, guess afterwards, node called (if any), writes. */
  datatype Transition = Transition(phase: Phase, guess: int, target: Option<int>, writes: seq<Write>)

  /** Effect of the whole loop: `used` attempts consumed, `targets` the nodes called in order. */
  datatype Run = Run(exit: Exit, guess: int, targets: seq<int>, writes: seq<Write>, used: nat)

  /** What `NewEntry` leaves behind: the server (with its updated guess) and what the caller saw. */
  datatype Reply = Reply(server: Server, exit: Exit, targets: seq<int>, writes: seq<Write>)

  /** An outcome after which the loop goes round again. */
  predicate Continues(o: Outcome) {
    o.OtherErr? || (o.Ok? && !o.success)
  }

  /** The guess after calling `target` and observing `o`: the reported leader, or unchanged on error. */
  function GuessAfter(target: int, o: Outcome): int {
    if o.Ok? then o.leader else target
  }

  /** Every leader id reported by the script is unknown or a valid index. */
  predicate ReportsInRange(script: seq<Attempt>, n: nat) {
    forall k :: 0 <= k < |script| && script[k].outcome.Ok? ==> ValidGuess(script[k].outcome.leader, n)
  }

  /** `NewServer`: one client per node, and no leader known yet. */
  function NewServer(addr: string, cluster: seq<Node>): (s: Server)
    ensures s.leader == Unknown
    ensures s.addr == addr
    ensures |s.clients| == |cluster|
    ensures forall i :: 0 <= i < |cluster| ==> s.clients[i].node == cluster[i]
    ensures ValidGuess(s.leader, |s.clients|)
  {
    Server(addr, seq(|cluster|, i requires 0 <= i < |cluster| => Client(cluster[i])), Unknown)
  }

  /**
    The guess correction after a successful call: the source only assigns
    when the reported id differs, which is the same as always adopting it.
   */
  function Adopt(guess: int, reported: Int32): (g: int)
    ensures g == reported
  {
    if reported != guess then reported else guess
  }

  /**
    The top of an iteration: an unknown guess is replaced by
    `randRange(0, len(env.Cluster))`; `None` is the panic of `rand.Intn(0)`.
   */
  function Pick(envLen: nat, guess: int, draw: nat): (p: Option<int>)
    ensures guess != Unknown ==> p == Some(guess)
    ensures guess == Unknown ==> (p.Some? <==> envLen > 0)
    ensures guess == Unknown && p.Some? ==> 0 <= p.value < envLen
  {
    if guess != Unknown then Some(guess)
    else if envLen > 0 then Some(RandRange(0, envLen, draw))
    else None
  }

  /** One iteration of the `NewEntry` loop. */
  function Step(envLen: nat, nClients: nat, guess: int, a: Attempt): (t: Transition)
    // dispatch goes to the current guess, or to a fresh pick when it is unknown
    ensures t.target.Some? ==> 0 <= t.target.value < nClients
    ensures t.target.Some? && guess != Unknown ==> t.target.value == guess
    ensures t.target.Some? && guess == Unknown ==> t.target.value < envLen
    ensures 0 <= guess < nClients ==> t.target.Some?
    ensures guess == Unknown && 0 < envLen <= nClients ==> t.target.Some?
    ensures guess != Unknown && !(0 <= guess < nClients) ==> t.target.None?
    // exit conditions
    ensures t.target.None? <==> t.phase == Done(Panicked)
    ensures t.target.Some? ==> (t.phase == Done(Committed) <==> a.outcome.Ok? && a.outcome.success)
    ensures t.target.Some? ==> (t.phase == Done(TimedOut) <==> a.outcome.DeadlineExceeded?)
    ensures t.target.Some? ==> (t.phase == Looping <==> Continues(a.outcome))
    ensures t.phase.Done? ==> t.phase.exit in {Committed, TimedOut, Panicked}
    // guess update: reported leader after a response, untouched by an error
    ensures t.target.Some? ==> t.guess == GuessAfter(t.target.value, a.outcome)
    ensures t.target.None? && guess != Unknown ==> t.guess == guess
    ensures t.target.None? && guess == Unknown && envLen > 0 ==> t.guess == RandRange(0, envLen, a.draw)
    // writes
    ensures t.target.Some? && a.outcome.OtherErr? ==> t.writes == [Failure(StatusInternalServerError, a.outcome.msg)]
    ensures t.phase == Done(Committed) ==> t.writes == [Body("true")]
    ensures t.target.None? || a.outcome.DeadlineExceeded? || (a.outcome.Ok? && !a.outcome.success) ==> t.writes == []
  {
    match Pick(envLen, guess, a.draw)
    case None => Transition(Done(Panicked), guess, None, [])
    case Some(g) =>
      if !(0 <= g < nClients) then Transition(Done(Panicked), g, None, [])
      else
        match a.outcome
        case DeadlineExceeded => Transition(Done(TimedOut), g, Some(g), [])
        case OtherErr(msg) => Transition(Looping, g, Some(g), [Failure(StatusInternalServerError, msg)])
        case Ok(success, leader) =>
          var g' := Adopt(g, leader);
          if success then Transition(Done(Committed), g', Some(g), [Body(FormatBool(success))])
          else Transition(Looping, g', Some(g), [])
  }

  /** The `for !success` loop of `NewEntry`, driven by a script of attempts. */
  function Loop(envLen: nat, nClients: nat, guess: int, script: seq<Attempt>): (r: Run)
    ensures r.used <= |script|
    ensures r.exit != BadRequest
    ensures r.exit == Pending ==> r.used == |script|
    ensures r.exit != Pending ==> 1 <= r.used
    // every attempt before the last one consumed went round again; the last one decides the exit
    ensures forall j :: 0 <= j < r.used && (j < r.used - 1 || r.exit == Pending) ==> Continues(script[j].outcome)
    ensures r.exit == Committed ==> script[r.used - 1].outcome.Ok? && script[r.used - 1].outcome.success
    ensures r.exit == TimedOut ==> script[r.used - 1].outcome.DeadlineExceeded?
    ensures |r.targets| == (if r.exit == Panicked then r.used - 1 else r.used)
    ensures forall i :: 0 <= i < |r.targets| ==> 0 <= r.targets[i] < nClients
    // the only body ever written is "true", and only as the last write of a commit
    ensures r.exit == Committed ==> |r.writes| > 0 && r.writes[|r.writes| - 1] == Body("true")
    ensures forall i :: 0 <= i < |r.writes| ==>
              r.writes[i].Failure? || (i == |r.writes| - 1 && r.exit == Committed && r.writes[i] == Body("true"))
    decreases |script|
  {
    if |script| == 0 then Run(Pending, guess, [], [], 0)
    else
      var t := Step(envLen, nClients, guess, script[0]);
      var sent := if t.target.Some? then [t.target.value] else [];
      match t.phase
      case Done(exit) => Run(exit, t.guess, sent, t.writes, 1)
      case Looping =>
        var rest := Loop(envLen, nClients, t.guess, script[1..]);
        Run(rest.exit, rest.guess, sent + rest.targets, t.writes + rest.writes, 1 + rest.used)
  }

  /**
    The `NewEntry` handler: a malformed body is refused with 400 before the
    guess is read; otherwise the loop runs against the server's guess and
    the guess it leaves behind is stored back. `env` is the global cluster
    list whose length bounds the random pick.
   */
  function NewEntry(s: Server, env: seq<Node>, body: Decoded, script: seq<Attempt>): (rep: Reply)
    ensures rep.server.addr == s.addr && rep.server.clients == s.clients
    ensures body.Malformed? ==>
              rep.server == s && rep.exit == BadRequest && rep.targets == []
              && rep.writes == [Failure(StatusBadRequest, body.msg)]
    ensures body.Decoded? ==> rep.exit != BadRequest
    // a decoded request is the loop against the stored guess, and the guess it leaves is stored for the next request
    ensures body.Decoded? ==>
              var r := Loop(|env|, |s.clients|, s.leader, script);
              rep.server.leader == r.guess && rep.exit == r.exit && rep.targets == r.targets && rep.writes == r.writes
    ensures forall i :: 0 <= i < |rep.targets| ==> 0 <= rep.targets[i] < |s.clients|
    ensures Body("false") !in rep.writes
  {
    match body
    case Malformed(msg) => Reply(s, BadRequest, [], [Failure(StatusBadRequest, msg)])
    case Decoded(_) =>
      var r := Loop(|env|, |s.clients|, s.leader, script);
      Reply(s.(leader := r.guess), r.exit, r.targets, r.writes)
  }

  /** A reported leader id outside the client list is read as "unknown". */
  function CheckLeader(n: nat, a: Attempt): (a': Attempt)
    ensures a'.draw == a.draw
    ensures a'.outcome.Ok? <==> a.outcome.Ok?
    ensures a.outcome.Ok? ==> a'.outcome.success == a.outcome.success
    ensures a'.outcome.Ok? ==> ValidGuess(a'.outcome.leader, n)
    ensures a.outcome.Ok? && ValidGuess(a.outcome.leader, n) ==> a' == a
    ensures a.outcome.Ok? && !ValidGuess(a.outcome.leader, n) ==> a'.outcome.leader == Unknown
    ensures !a.outcome.Ok? ==> a' == a
  {
    if a.outcome.Ok? && !ValidGuess(a.outcome.leader, n) then Attempt(a.draw, Ok(a.outcome.success, Unknown))
    else a
  }

  function Sanitize(n: nat, script: seq<Attempt>): (out: seq<Attempt>)
    ensures |out| == |script|
    ensures forall k :: 0 <= k < |script| ==> out[k] == CheckLeader(n, script[k])
    ensures ReportsInRange(out, n)
  {
    seq(|script|, k requires 0 <= k < |script| => CheckLeader(n, script[k]))
  }

  /**
    `NewEntry` with the range check the source omits: every reported
    leader id is checked against the client list before it becomes the
    guess, so the guess can never index outside the list.
   */
  function NewEntryChecked(s: Server, env: seq<Node>, body: Decoded, script: seq<Attempt>): (rep: Reply)
    ensures |env| == |s.clients| > 0 && ValidGuess(s.leader, |s.clients|) ==>
              rep.exit != Panicked && ValidGuess(rep.server.leader, |rep.server.clients|)
  {
    SafeLoop(|s.clients|, s.leader, Sanitize(|s.clients|, script));
    NewEntry(s, env, body, Sanitize(|s.clients|, script))
  }

  /** Under in-range reports and a valid starting guess, the loop never panics and keeps the guess valid. */
  lemma {:induction false} SafeLoop(n: nat, guess: int, script: seq<Attempt>)
    requires ReportsInRange(script, n)
    ensures n > 0 && ValidGuess(guess, n) ==>
              var r := Loop(n, n, guess, script);
              r.exit != Panicked && ValidGuess(r.guess, n) && |r.targets| == r.used
    decreases |script|
  {
    if n > 0 && ValidGuess(guess, n) && |script| > 0 {
      var t := Step(n, n, guess, script[0]);
      assert t.target.Some?;
      if t.phase == Looping {
        ReportsInRangeTail(script, n);
        SafeLoop(n, t.guess, script[1..]);
      }
    }
  }

  lemma ReportsInRangeTail(script: seq<Attempt>, n: nat)
    requires |script| > 0 && ReportsInRange(script, n)
    ensures ReportsInRange(script[1..], n)
  {
  }

  /** The request method, as `ServeHTTP` routes it. */
  datatype Route =
    | NotAllowed(write: Write)
    | ReadLog
    | Append(exit: Exit, targets: seq<int>, writes: seq<Write>)

  datatype Handled = Handled(server: Server, route: Route)

  const MethodGet: string := "GET"
  const MethodPost: string := "POST"

  /**
    `ServeHTTP`: anything but GET and POST is refused with 405, GET is the
    fan-out log read (which does not touch the guess), POST is `NewEntry`.
   */
  function ServeHTTP(s: Server, env: seq<Node>, verb: string, body: Decoded, script: seq<Attempt>): (h: Handled)
    ensures h.route.NotAllowed? <==> verb != MethodPost && verb != MethodGet
    ensures h.route.NotAllowed? ==> h.route.write == Failure(StatusMethodNotAllowed, "not allowed")
    ensures verb == MethodGet ==> h.route == ReadLog
    ensures verb == MethodPost ==> h.route.Append?
    ensures !h.route.Append? ==> h.server == s
    ensures h.route.Append? ==>
              var rep := NewEntry(s, env, body, script);
              h.server == rep.server && h.route == Append(rep.exit, rep.targets, rep.writes)
  {
    if verb != MethodPost && verb != MethodGet then
      Handled(s, NotAllowed(Failure(StatusMethodNotAllowed, "not allowed")))
    else if verb == MethodGet then
      Handled(s, ReadLog)
    else
      var rep := NewEntry(s, env, body, script);
      Handled(rep.server, Append(rep.exit, rep.targets, rep.writes))
  }
}

=== FILE: push_handler.dfy ===
/**
  The `/push` handler registered in main.go, an earlier variant of the
  write path: it tolerates at most one redirect. Its guess is the
  process-wide variable `leader`, starting at -1 (unknown); the handler is
  modelled as a function from the guess before the request to the guess
  after it. Both calls use a context without deadline, so every error,
  `DeadlineExceeded` included, is answered with 500.

  The handler as written bounds its random pick by `len(env.Cluster)-1`
  and follows any leader id the first response names. `PushWith` takes
  the pick bound and a range-check switch as parameters, so that the
  source's handler (`Push`) and the corrected one (`PushFixed`) share one
  definition.
 */
module PushHandler {
  import opened Cluster

  datatype PushExit = BadRequest | Answered(success: bool) | InternalError | Panicked

  /** The guess left behind, how the request ended, the nodes called in order, and the writes. */
  datatype PushReply = PushReply(leader: int, exit: PushExit, targets: seq<int>, writes: seq<Write>)

  /** The response whose answer the caller reads: the redirected call's when there was one. */
  function LastCall(targets: seq<int>, first: Outcome, second: Outcome): Outcome {
    if |targets| == 2 then second else first
  }

  /** The guess kept from a reported leader id: with the range check, an id outside the cluster reads as unknown. */
  function Kept(rangeChecked: bool, n: nat, reported: int): (g: int)
    ensures rangeChecked ==> ValidGuess(g, n)
    ensures ValidGuess(reported, n) || !rangeChecked ==> g == reported
    ensures rangeChecked && !ValidGuess(reported, n) ==> g == Unknown
  {
    if rangeChecked && !ValidGuess(reported, n) then Unknown else reported
  }

  /**
    From the first call on, once node `g` has been chosen: the call, the
    redirect when the response names another leader, and the reply.
   */
  function Dispatch(rangeChecked: bool, n: nat, g: int, first: Outcome, second: Outcome): (rep: PushReply)
    requires 0 <= g < n
    ensures 1 <= |rep.targets| <= 2 && rep.targets[0] == g
    ensures forall i :: 0 <= i < |rep.targets| ==> 0 <= rep.targets[i] < n
    ensures rep.exit != BadRequest
    // the redirect: taken when the first response names a different leader, and aimed at it
    ensures first.Ok? && !rangeChecked ==>
              ((|rep.targets| == 2 || rep.exit == Panicked) <==> first.leader != WrapInt32(g))
    ensures first.Ok? && rangeChecked ==>
              (|rep.targets| == 2 <==> first.leader != WrapInt32(g) && 0 <= first.leader < n)
    ensures |rep.targets| == 2 ==> first.Ok? && rep.targets[1] == first.leader
    // a completed request: the guess is the last response's leader, the body its success flag
    ensures rep.exit.Answered? ==>
              var last := LastCall(rep.targets, first, second);
              && last.Ok?
              && rep.leader == Kept(rangeChecked, n, last.leader)
              && rep.exit.success == last.success
              && rep.writes == [Body(FormatBool(last.success))]
    // a failed call: 500, and the guess is the node just called
    ensures rep.exit == InternalError ==>
              var last := LastCall(rep.targets, first, second);
              && !last.Ok?
              && rep.leader == rep.targets[|rep.targets| - 1]
              && rep.writes == [Failure(StatusInternalServerError, ErrorText(last))]
    // only an unchecked redirect can panic
    ensures rep.exit == Panicked ==>
              && !rangeChecked && first.Ok? && !(0 <= first.leader < n)
              && rep.writes == [] && |rep.targets| == 1 && rep.leader == first.leader
    ensures rangeChecked ==> rep.exit != Panicked && ValidGuess(rep.leader, n)
  {
    match first
    case Ok(success1, leader1) =>
      if leader1 != WrapInt32(g) then
        if rangeChecked && !(0 <= leader1 < n) then
          PushReply(Kept(rangeChecked, n, leader1), Answered(success1), [g], [Body(FormatBool(success1))])
        else if !(0 <= leader1 < n) then PushReply(leader1, Panicked, [g], [])
        else
          match second
          case Ok(success2, leader2) =>
            PushReply(Kept(rangeChecked, n, leader2), Answered(success2), [g, leader1], [Body(FormatBool(success2))])
          case _ =>
            PushReply(leader1, InternalError, [g, leader1], [Failure(StatusInternalServerError, ErrorText(second))])
      else
        PushReply(Kept(rangeChecked, n, leader1), Answered(success1), [g], [Body(FormatBool(success1))])
    case _ =>
      PushReply(g, InternalError, [g], [Failure(StatusInternalServerError, ErrorText(first))])
  }

  /**
    The handler with its initial pick drawn from `randRange(0, pickBound)`.
    `n` is the number of clients (one per cluster node). A pick bound that
    is not positive is the panic of `rand.Intn`; a guess outside the client
    list is the panic of the slice index. Without the range check
    (`rangeChecked == false`) this is main.go's handler; with it, a first
    response naming no valid node is answered without a redirect, and a
    reported id outside the cluster is kept as unknown.
   */
  function PushWith(pickBound: int, rangeChecked: bool, n: nat, leader: int, body: Decoded, draw: nat, first: Outcome, second: Outcome): (rep: PushReply)
    // a malformed body is refused before the guess is read or moved
    ensures body.Malformed? ==> rep == PushReply(leader, BadRequest, [], [Failure(StatusBadRequest, body.msg)])
    ensures body.Decoded? ==> rep.exit != BadRequest
    // at most two calls, each to a client that exists
    ensures |rep.targets| <= 2
    ensures forall i :: 0 <= i < |rep.targets| ==> 0 <= rep.targets[i] < n
    // the first call goes to the guess, or to a fresh pick in [0, pickBound) when it is unknown
    ensures |rep.targets| > 0 && leader != Unknown ==> rep.targets[0] == leader
    ensures |rep.targets| > 0 && leader == Unknown ==> 0 <= rep.targets[0] < pickBound
    ensures body.Decoded? && 0 <= leader < n ==> |rep.targets| > 0
    ensures body.Decoded? && leader == Unknown && 0 < pickBound <= n ==> |rep.targets| > 0
    ensures body.Decoded? && leader == Unknown && pickBound <= 0 ==> rep.exit == Panicked && rep.leader == leader
    // a known guess outside the client list panics on the slice index before any call
    ensures body.Decoded? && leader != Unknown && !(0 <= leader < n) ==> rep == PushReply(leader, Panicked, [], [])
    // everything after the choice of the first node
    ensures |rep.targets| > 0 ==> rep == Dispatch(rangeChecked, n, rep.targets[0], first, second)
    // with the range check, a valid guess stays valid and only the pick can panic
    ensures rangeChecked && ValidGuess(leader, n) && pickBound <= n ==> ValidGuess(rep.leader, n)
    ensures rangeChecked && ValidGuess(leader, n) && rep.exit == Panicked ==> leader == Unknown && !(0 < pickBound <= n)
  {
    match body
    case Malformed(msg) => PushReply(leader, BadRequest, [], [Failure(StatusBadRequest, msg)])
    case Decoded(_) =>
      if leader == Unknown && pickBound <= 0 then PushReply(leader, Panicked, [], [])
      else
        var g := if leader == Unknown then RandRange(0, pickBound, draw) else leader;
        if !(0 <= g < n) then PushReply(g, Panicked, [], [])
        else Dispatch(rangeChecked, n, g, first, second)
  }

  /**
    The handler as written: the unknown guess is replaced by
    `randRange(0, len(env.Cluster)-1)`, which never picks the last node and
    panics on a one-node cluster, and any leader id the first response
    names is redirected to unchecked.
   */
  function Push(n: nat, leader: int, body: Decoded, draw: nat, first: Outcome, second: Outcome): (rep: PushReply)
    ensures body.Decoded? && leader == Unknown && n >= 2 ==> |rep.targets| > 0 && rep.targets[0] < n - 1
    ensures body.Decoded? && leader == Unknown && n <= 1 ==> rep.exit == Panicked && rep.targets == []
  {
    PushWith(n - 1, false, n, leader, body, draw, first, second)
  }

  /**
    The corrected handler: the pick bound is the cluster size, as on the
    write path of proxy/server.go, and reported leader ids are range-checked
    before they are followed or kept. It never panics on a non-empty
    cluster and keeps the guess unknown or valid.
   */
  function PushFixed(n: nat, leader: int, body: Decoded, draw: nat, first: Outcome, second: Outcome): (rep: PushReply)
    ensures body.Decoded? && leader == Unknown && n >= 1 ==> |rep.targets| > 0 && rep.targets[0] < n
    ensures n >= 1 && ValidGuess(leader, n) ==> rep.exit != Panicked && ValidGuess(rep.leader, n)
  {
    PushWith(n, true, n, leader, body, draw, first, second)
  }

  /** The counterexample: a one-node cluster with no leader known yet panics on its first request. */
  lemma SingleNodePushPanics(cmd: Command, draw: nat, first: Outcome, second: Outcome)
    ensures Push(1, Unknown, Decoded(cmd), draw, first, second).exit == Panicked
    ensures PushFixed(1, Unknown, Decoded(cmd), draw, first, second).targets == [0]
  {
  }

  /** As written, no draw ever makes the last node the first pick. */
  lemma PushNeverPicksLast(n: nat, cmd: Command, first: Outcome, second: Outcome)
    requires n >= 2
    ensures forall draw: nat :: Push(n, Unknown, Decoded(cmd), draw, first, second).targets[0] != n - 1
  {
  }

  /** Corrected, every node, the last included, is the first pick for some draw. */
  lemma PushFixedReachesEveryNode(n: nat, v: int, cmd: Command, first: Outcome, second: Outcome)
    requires 0 <= v < n
    ensures exists draw: nat :: PushFixed(n, Unknown, Decoded(cmd), draw, first, second).targets[0] == v
  {
    RandRangeCovers(0, n, v);
    assert PushFixed(n, Unknown, Decoded(cmd), v, first, second).targets[0] == v;
  }

  /**
    Convergence: once the guess is the leader the nodes report, a request
    makes exactly one call, to that leader, and leaves the guess there.
   */
  lemma PushStaysOnLeader(n: nat, l: int, cmd: Command, draw: nat, first: Outcome, second: Outcome)
    requires 0 <= l < n && first.Ok? && first.leader == l
    ensures var rep := Push(n, l, Decoded(cmd), draw, first, second);
            rep.targets == [l] && rep.leader == l && rep.exit == Answered(first.success)
  {
  }

  /**
    One redirect is enough when the redirected node answers: a first
    response naming another node `l`, followed by a response from `l`
    naming `l`, leaves the guess at `l` and the caller reading the second
    response's flag.
   */
  lemma PushRedirectOnce(n: nat, leader: Int32, cmd: Command, draw: nat, first: Outcome, second: Outcome)
    requires 0 <= leader < n
    requires first.Ok? && 0 <= first.leader < n && first.leader != leader
    requires second.Ok? && second.leader == first.leader
    ensures var rep := Push(n, leader, Decoded(cmd), draw, first, second);
            rep.targets == [leader, first.leader] && rep.leader == first.leader
            && rep.exit == Answered(second.success)
  {
  }

  /**
    As written, a first response that names any id outside the client
    list, the "unknown" id -1 included, is redirected to and panics on the
    slice index, leaving that id as the guess.
   */
  lemma PushBadRedirectPanics(n: nat, leader: int, cmd: Command, draw: nat, first: Outcome, second: Outcome)
    requires 0 <= leader < n && leader < 0x8000_0000
    requires first.Ok? && !(0 <= first.leader < n)
    ensures var rep := Push(n, leader, Decoded(cmd), draw, first, second);
            rep.exit == Panicked && rep.targets == [leader] && rep.leader == first.leader
  {
  }

  /**
    As written, the bad guess outlives the request: after a redirect to an
    id outside the client list other than -1, the next request panics
    before it calls any node, whatever it carries.
   */
  lemma PushPoisonedGuessPanicsNextRequest(n: nat, leader: int, cmd: Command, draw: nat, first: Outcome, second: Outcome,
                                           cmd': Command, draw': nat, first': Outcome, second': Outcome)
    requires 0 <= leader < n && leader < 0x8000_0000
    requires first.Ok? && !(0 <= first.leader < n) && first.leader != Unknown
    ensures var rep := Push(n, leader, Decoded(cmd), draw, first, second);
            && rep.exit == Panicked
            && Push(n, rep.leader, Decoded(cmd'), draw', first', second') == PushReply(first.leader, Panicked, [], [])
  {
    PushBadRedirectPanics(n, leader, cmd, draw, first, second);
  }

  /** The counterexample: three nodes, guess 0, node 0 answers "not me, leader unknown". */
  lemma PushUnknownReportPanics(cmd: Command, draw: nat, second: Outcome)
    ensures Push(3, 0, Decoded(cmd), draw, Ok(false, -1), second).exit == Panicked
    ensures PushFixed(3, 0, Decoded(cmd), draw, Ok(false, -1), second) == PushReply(Unknown, Answered(false), [0], [Body("false")])
  {
  }
}
